=== FILE: README.md ===
# Attendo: a Dafny model of the attendance client's decision logic

Attendo is a QR-code attendance web client. A teacher opens a two-minute
attendance window for a class by showing a QR code. Students scan it to mark
themselves present. Staff and students sign in through a role-gated login
page. Almost all of the client is rendering and network plumbing. This
project lifts the deterministic decisions out of the component handlers and
models them as pure functions over immutable records:

- `Types` holds the shared records: `User`, `UserRole`, `UserStatus`,
  `ClassSession`, `AttendanceRecord` and `QRData`.
- `Strings` models JavaScript's `trim` (the ECMAScript whitespace set) and
  `toLowerCase` (ASCII letters), the `a || b` fallback, integer-to-decimal
  rendering and `padStart(2, '0')`.
- `Api` models how every API wrapper builds the posted body `{ action, ...payload }`.
  Every e-mail address is sent as `email.trim().toLowerCase()`. It also models
  how `callBackend` sorts an exchange into an HTTP error, an unparseable body,
  a backend-reported failure or the returned `data`.
- `TeacherDashboard` models the teacher's session as the record
  `{activeSession, qrData, timeLeft, presentCount}`. Its transitions are
  `StartSession`, `Tick` (one interval firing plus the effect re-run it causes),
  `Close` and `Poll`. It also models the `m:ss` rendering of the time left.
- `StudentDashboard` models `handleScan`: it drops empty or re-entrant scans,
  applies the inclusive client-side expiry test, picks the location fallback
  and builds the `markAttendance` payload. It also models the below-75 flag.
- `Login` models the role gates of the manual and the Google sign-in paths
  and the form's error/loading state.
- `App` models the four-page shell and the stored user: restore at start-up,
  store on sign-in, remove on sign-out, and route the dashboard by role.

Inputs the client takes from its environment become parameters: the clock
(`now`), today's date, the random token, the geolocation reading, the result
of `JSON.parse` on scanned text, and the outcome of each backend request.

The scan handler's only check on a credential is the expiry comparison
`now > data.expiryTimestamp`. JavaScript converts the property to a number
first (`StudentDashboard.ExpiryField`). A missing property, and any string or
object that does not read as a number, converts to NaN and never compares as
expired, so such a code is submitted (`StudentDashboard.ExpiryConversion`).
`null`, `false` and `""` convert to 0, `true` to 1, and a numeric string to
its value, and these compare like the number.

The client does not protect credentials beyond that:

- A scan at the expiry instant is accepted (`ExpiryBoundary`). Only the
  student's device checks expiry, using the device's own clock.
- The expiry test reads the clock once, before the wait for a geolocation
  reading, and the request is sent afterwards without a second check. The
  permission prompt is not covered by the five-second timeout, so the request
  can go out well after the instant that was checked. The model's single
  `now` is that checked instant.
- Starting a new session replaces only the teacher page's local state
  (`StartForgetsPrevious`). Nothing voids a code that was already scanned or
  photographed.
- The token is forwarded to the backend unverified. The client performs no
  nonce, session or duplicate-claim checks.
- Anomaly and risk assessments are requested from an external generative
  model. There is no deterministic logic for them to model.

## Model

| member | source | states |
|---|---|---|
| `Strings.OrDefault` | services/api.ts:29 | the logical-or fallback on strings: a non-empty `m` is kept, an empty one gives `d`, so the result is empty only when both are |
| `Strings.Trim` | services/api.ts:39 | the result has whitespace at neither end, and the input is the result with only whitespace added before and after |
| `Strings.LowerChar` | services/api.ts:39 | an ASCII capital becomes the lower-case letter 32 code points above it; every other character is kept; the result is never a capital |
| `Strings.ToLower` | services/api.ts:39 | same length, character by character the lower-case form, and no upper-case ASCII letter remains |
| `Strings.NormaliseEmail` | services/api.ts:39 | `email.trim().toLowerCase()` always yields an address with whitespace at neither end and no upper-case ASCII letter |
| `Strings.NormaliseEmailCharacterised` | services/api.ts:39-40 | `trim().toLowerCase()` always yields a normalised address (trimmed, no upper case), and an address is unchanged by it exactly when it is already normalised |
| `Strings.NormaliseEmailIdempotent` | services/api.ts:39-40 | normalising an already-normalised e-mail leaves it unchanged |
| `Strings.NatToString` | pages/TeacherDashboard.tsx:143 | `n.toString()` is a non-empty string of decimal digits, a single digit exactly for `n < 10`, and starts with `0` only for 0 |
| `Strings.NatToStringRoundTrip` | pages/TeacherDashboard.tsx:143 | reading back the decimal digits of `n.toString()` gives `n` |
| `Strings.PadStart2` | pages/TeacherDashboard.tsx:143 | `padStart(2, '0')` gives at least two characters: shorter strings are left-filled with `'0'` and keep their digits as the suffix, longer ones are unchanged |
| `Api.CallPayload` | services/api.ts:38-59 | `loginManual`, `loginGoogle`, `approveUser` and `deactivateUser` send exactly `{ email }` in normal form, and `getClasses` also sends `role = 'Teacher'`. `signup` changes only the e-mail field and keeps every key. `getProfile` and `getHistory` send exactly `{ studentId }`, `getUsers` and `getStats` send nothing, and `markAttendance` sends its data unchanged |
| `Api.Action` | services/api.ts:39-58 | every call names a non-empty backend action, and no two kinds of call share one (see `Api.ActionsDistinguishCalls`) |
| `Api.RequestBody` | services/api.ts:12 | the posted body has exactly the payload's keys plus `action`; every payload field is sent as given, and `action` is the call's own unless the payload overrides it |
| `Api.Body` | services/api.ts:12-58 | the posted body has the call's payload fields plus `action`. Every payload field is sent with its payload value (so `getClasses` posts `role = 'Teacher'`), and `action` is the call's own unless the payload carries an `action` field, which only the caller's data for `signup` or `markAttendance` can |
| `Api.SentEmailIsNormalised` | services/api.ts:38-57 | for `loginManual`, `loginGoogle`, `signup`, `getClasses`, `approveUser` and `deactivateUser`, the e-mail in the posted body is trimmed and lower-case, and is the normal form of what the caller passed |
| `Api.NormalisedEmailSameBody` | services/api.ts:39-57 | for every call that carries an e-mail, `signup` included, passing the address already in normal form produces the identical request body |
| `Api.BodyDependsOnNormalForm` | services/api.ts:39-57 | for every call that carries an e-mail, the posted body depends on the address only through its normal form, so two spellings with the same normal form are sent alike |
| `Api.ActionsDistinguishCalls` | services/api.ts:38-59 | two calls with the same backend action are the same kind of call |
| `Api.CallBackend` | services/api.ts:4-36 | `data` is returned exactly when the response is ok, parses and reports success, and then it is exactly `result.data`. A non-ok status gives `HTTP Error: <status>`, an unparseable body gives the "Invalid response" error, a reported failure gives `result.error` or `Backend operation failed`, and a failed connection gives its own message or `Connection to backend failed.`. Every error message is non-empty |
| `Api.BackendFailureMessage` | services/api.ts:28-34 | in an ok response of any status, `success == false` yields an error carrying `result.error`, or `Backend operation failed` when that is empty. A failed connection yields its own message, or `Connection to backend failed.` when that is empty |
| `TeacherDashboard.InitialInv` | pages/TeacherDashboard.tsx:9-12 | the mounted dashboard has no session, no credential, a zero count, and satisfies the session invariant |
| `TeacherDashboard.StartSession` | pages/TeacherDashboard.tsx:52-69 | the credential is for the chosen class and today, starts at `now`, expires exactly 120 000 ms later and carries the token unchanged; the class becomes active, the countdown is 120 and the count 0; the invariant holds afterwards |
| `TeacherDashboard.StartForgetsPrevious` | pages/TeacherDashboard.tsx:65-68 | starting a session yields the same state whatever session, credential, countdown or count preceded it |
| `TeacherDashboard.Settle` | pages/TeacherDashboard.tsx:34-35 | when the effect runs with no interval armed, the credential is withdrawn exactly when the countdown is at 0; otherwise it is kept. Nothing else changes |
| `TeacherDashboard.Tick` | pages/TeacherDashboard.tsx:26-38 | with a credential shown and time left, a tick takes exactly one second off and withdraws the credential when it reaches 0. Otherwise the state is unchanged. Session and count are untouched, and the invariant (time in [0,120], credential only with time left and for the active class) is preserved |
| `TeacherDashboard.PollDue` | pages/TeacherDashboard.tsx:32 | a poll is started only on a tick with a credential shown, and then the time before that tick's decrement is a multiple of 5 and at least 5 |
| `TeacherDashboard.Close` | pages/TeacherDashboard.tsx:120 | closing the modal clears the credential and stops the countdown; the remaining time, session and count are left as they were |
| `TeacherDashboard.TodaysRecords` | pages/TeacherDashboard.tsx:45 | the filter keeps only records for the active class dated today, keeps every such record, invents none, and is never longer than the history |
| `TeacherDashboard.PresentCountIsMatchingPositions` | pages/TeacherDashboard.tsx:45 | the present count equals the number of history positions whose class is the active class and whose date is today |
| `TeacherDashboard.Poll` | pages/TeacherDashboard.tsx:40-50 | with no active session, or a failed history request, nothing changes. Otherwise the count becomes the number of matching history positions, which is at most the history length. Session, credential and countdown are untouched |
| `TeacherDashboard.Countdown` | pages/TeacherDashboard.tsx:26-38 | from any shown credential with `t` seconds left, `k <= t` ticks leave `t - k` seconds. The credential stays unchanged while time remains and is withdrawn exactly when `k = t` |
| `TeacherDashboard.IdleStaysPut` | pages/TeacherDashboard.tsx:28-36 | once no credential is shown or no time is left, further ticks change nothing |
| `TeacherDashboard.SessionLasts120Ticks` | pages/TeacherDashboard.tsx:26-38 | after a start, the credential is still shown after 119 ticks with 1 second left. It is gone after 120 ticks with 0 left, and nothing changes afterwards |
| `TeacherDashboard.PollSchedule` | pages/TeacherDashboard.tsx:32 | over `k` ticks from `t` seconds left, a poll is started once for each multiple of 5 in `(t-k, t]`, the value tested before the decrement |
| `TeacherDashboard.PollsPerSession` | pages/TeacherDashboard.tsx:29-32 | a full two-minute session starts 24 polls, the first on its very first tick |
| `TeacherDashboard.FormatTime` | pages/TeacherDashboard.tsx:143 | the rendering is the whole minutes as `toString` writes them, with no leading zero, then `:` and two digits. The two digits read back as a value below 60, and minutes × 60 + seconds read back to exactly the time left |
| `TeacherDashboard.FormatTimeExamples` | pages/TeacherDashboard.tsx:143 | 120 renders as `2:00`, 5 as `0:05`, 65 as `1:05` |
| `StudentDashboard.IsExpired` | pages/StudentDashboard.tsx:39 | a missing or NaN-converting expiry is never expired; `null` and `false` are expired exactly at positive times, `true` after 1 ms, and a number (or numeric string) strictly after its value |
| `StudentDashboard.LocationString` | pages/StudentDashboard.tsx:47-55 | the location is `Unknown` exactly when geolocation failed, otherwise `"lat, lon"` |
| `StudentDashboard.MarkPayload` | pages/StudentDashboard.tsx:58-64 | the payload always has `method = 'QR'` and the location. It has `studentId`, `classId` and `token` exactly when they are defined, each with its value unchanged, and no other field |
| `StudentDashboard.HandleScan` | pages/StudentDashboard.tsx:30-75 | an empty scan or one arriving while loading changes nothing and sends nothing. Text that fails to parse alerts its error message or the default and keeps the scanner. An expired code alerts the expiry text, sends nothing and closes the scanner. Otherwise the `markAttendance` payload is sent. On success the alert names the class and the scanner closes; on failure the alert is the error message or the default and the scanner stays as it was. `loading` always ends false |
| `StudentDashboard.ExpiryBoundary` | pages/StudentDashboard.tsx:39-44 | a scan is submitted iff `now <= expiryTimestamp`: at the expiry instant it is accepted, a millisecond later it is rejected with the expiry alert and the scanner closes |
| `StudentDashboard.ExpiryConversion` | pages/StudentDashboard.tsx:35-44 | a parsed object whose expiry is missing or converts to NaN is always submitted. One whose expiry is `null`, `false` or 0 is rejected with the expiry alert at any positive time |
| `StudentDashboard.MalformedIsNotSubmitted` | pages/StudentDashboard.tsx:34-74 | text that fails to parse sends nothing, clears `loading`, leaves the scanner as it was, and alerts the parse message or the default |
| `StudentDashboard.FreshCredentialClaim` | pages/StudentDashboard.tsx:35-64 | a code generated by `startSession` at `t0` is submitted exactly when scanned at or before `t0 + 120000`. The request then carries the session's class, the minted token unchanged, `method = 'QR'` and the location |
| `StudentDashboard.LowAttendance` | pages/StudentDashboard.tsx:84 | a percentage that converts to NaN (such as a missing one) is never low; a numeric one is low exactly below 75 |
| `StudentDashboard.LowAttendanceThreshold` | pages/StudentDashboard.tsx:84 | the low flag holds iff the percentage is below 75, so exactly 75 is not low, and it is downward closed |
| `Login.ManualLogin` | pages/Login.tsx:54-82 | the manual path admits exactly a found account whose role is Student iff the Student side is selected, and hands over that account. A missing account or a mismatch in either direction is rejected with a non-empty message |
| `Login.GoogleLogin` | pages/Login.tsx:31-52 | the Google path admits a decoded, found account unless the Student side is selected for a non-Student account; nothing else is rejected |
| `Login.GoogleAdmitsWhatManualAdmits` | pages/Login.tsx:38-46 | every lookup the manual path admits, the Google path admits as well |
| `Login.PathsDifferOnlyOnStaffSide` | pages/Login.tsx:42-46 | the two paths disagree exactly on a Student account with the staff side selected: Google admits it, manual rejects it with the switch-to-Student message |
| `Login.ManualMismatchMessages` | pages/Login.tsx:66-74 | a staff account on the Student side gets "Account identified as <role>…", and a Student account on either staff side gets the switch-to-Student message |
| `Login.Attempt` | pages/Login.tsx:56-80 | after an attempt `loading` is false. An accepted attempt leaves the error empty; a rejection shows its message, or the fallback when the message is empty |
| `Login.ManualAttempt` | pages/Login.tsx:54-82 | the manual form ends not loading, with an empty error exactly when the login was admitted; a thrown lookup error shows its message or `Login failed.` |
| `Login.GoogleAttempt` | pages/Login.tsx:31-52 | the Google form ends not loading, with an empty error exactly when the login was admitted; a credential that cannot be decoded shows its error or `Google Sign-In failed.` |
| `App.PageNamed` | App.tsx:47-77 | selecting a page by name and naming it again gives back the name; only the four known names select a known page, any other falls through to the default branch |
| `App.PageNameRoundTrip` | App.tsx:11 | each of the four pages is selected by its own name |
| `App.Mount` | App.tsx:14-16 | the shell mounts on the home page, loading, with nobody signed in and storage as the browser holds it |
| `App.Restore` | App.tsx:18-26 | start-up always ends loading and keeps storage as it is. A stored user is restored and the dashboard shown; with none, the user and page stay as they were |
| `App.AuthSuccess` | App.tsx:28-32 | sign-in sets the user, stores the same user and shows the dashboard |
| `App.Logout` | App.tsx:34-38 | sign-out clears the user, removes the stored user and shows home |
| `App.Navigate` | App.tsx:48-50 | a child's `onNavigate` changes only the page |
| `App.Panels` | App.tsx:71-73 | the dashboard shows exactly one panel, the one for the user's role |
| `App.Render` | App.tsx:40-79 | while loading only the spinner is drawn. The login and signup pages draw their forms. The dashboard with no user draws nothing and sends the shell home; with a user it draws that user's single role panel. Home and any unrecognised page draw Home. User and storage are untouched |
| `App.SyncedPreserved` | App.tsx:18-38 | every transition keeps the shell's invariant: nobody is signed in before start-up, and after it the signed-in user and the stored user agree |
| `App.StartupRestores` | App.tsx:14-26 | start-up with a stored user goes to the dashboard as that user; with none it stays home with nobody signed in |
| `App.ReloadRoundTrip` | App.tsx:18-38 | a reload after sign-in resumes the same user on the dashboard; after sign-out it starts home with nobody |
| `App.OrphanDashboardGoesHome` | App.tsx:52 | navigating to the dashboard with nobody signed in is redirected, and the next render draws Home |

## Left out

- `StudentDashboard.Decoded` holds the scanned `classId` and `token` as optional strings. A scanned `null`, number, boolean, array or object in those fields is not represented. The source would forward such a value to the backend as JSON, and the success alert would render it with `String()`.
- JSON serialisation and parsing. The teacher's `QRData` is held as a record, not as its JSON text. `StudentDashboard.Decode` stands for parsing the teacher's text back. The scanned text's parse result is an input.
- `fetch`, the Google Apps Script backend and Google Identity. Each request's outcome is an input (`Api.Exchange`, or a `Result`). The credential's JWT decoding is an input to `Login.GoogleLogin`.
- `localStorage` is modelled as the optional user it holds. Storing and re-reading the JSON text is assumed faithful.
- The clock, `crypto.randomUUID`, the ISO date of "today", geolocation and the rendering of coordinates are inputs. So are the QR scanner and renderer.
- `setInterval` timing and React effect scheduling. The countdown is the discrete `Tick` step, and concurrent state updates are not modelled.
- `TeacherDashboard.FormatTime` takes a non-negative time. `TeacherDashboard.Tick` proves the countdown stays in [0, 120], so JavaScript's sign-following `%` on negative values never arises.
- `Strings.ToLower` lowers ASCII letters only. Unicode case mapping is out of scope.
- The Google path's "loading" and error state around the `onAuthSuccess` call, and everything `onAuthSuccess` does, beyond what `App.AuthSuccess` models.
- `StudentDashboard.LowAttendance` takes the percentage after its conversion to a number, and the conversion itself is not modelled.
- `StudentDashboard.ExpiryField` has no case for an expiry that converts to an infinity (a JSON number beyond the double range). Positive infinity behaves like NaN; negative infinity would always be expired.
- The student profile/history loading (`loadData`), the teacher's class list loading, and `getUsers`/`getStats` beyond their request bodies. These are display data with no decision logic.
- The urgent-colour styling of the countdown below 20 seconds, and all JSX layout.
- `services/gemini.ts`: every anomaly, risk and insight decision there is made by an external generative model, so there is no deterministic logic to model.
- `pages/Home.tsx`, `pages/AdminDashboard.tsx` and `pages/Signup.tsx` apart from the API bodies they send. `server.js` and `vite.config.ts` are deployment files.
- Token verification, nonces, credential supersession and at-most-once admission are not modelled, because the client does none of them.

=== FILE: api.dfy ===
/**
 The client side of the backend protocol: how each API call builds the JSON
 body it posts (`{ action, ...payload }`), and how `callBackend` turns the
 HTTP exchange into a returned value or a thrown error message.

 Payloads are maps from field name to string value; a field whose value is
 `undefined` is absent, as `JSON.stringify` drops it.
 */
module Api {
  import opened Types
  import opened Strings

  type Payload = map<string, string>

  /** Every call the client can make, with the arguments its caller passes. */
  datatype ApiCall =
    | LoginManual(email: string)
    | LoginGoogle(email: string)
    | Signup(form: Payload)
    | GetProfile(id: string)
    | GetHistory(id: string)
    | MarkAttendance(data: Payload)
    | GetClasses(email: string)
    | GetUsers
    | ApproveUser(email: string)
    | DeactivateUser(email: string)
    | GetStats

  /** `authApi.signup` reads `data.email.trim()`, so the form must carry an e-mail. */
  predicate WellFormed(c: ApiCall) {
    c.Signup? ==> "email" in c.form
  }

  /** The calls whose payload carries the caller's e-mail address. */
  predicate CarriesEmail(c: ApiCall) {
    c.LoginManual? || c.LoginGoogle? || c.Signup? || c.GetClasses? || c.ApproveUser? || c.DeactivateUser?
  }

  /** The e-mail address the caller handed to a call that carries one. */
  function SuppliedEmail(c: ApiCall): string
    requires WellFormed(c) && CarriesEmail(c)
  {
    if c.Signup? then c.form["email"] else c.email
  }

  /** The backend action each wrapper names; no two kinds of call share one. */
  function Action(c: ApiCall): (a: string)
    ensures a != ""
  {
    match c
    case LoginManual(_) => "login_manual"
    case LoginGoogle(_) => "login_google"
    case Signup(_) => "signup"
    case GetProfile(_) => "get_student_profile"
    case GetHistory(_) => "get_attendance_history"
    case MarkAttendance(_) => "mark_attendance"
    case GetClasses(_) => "get_classes"
    case GetUsers => "admin_get_users"
    case ApproveUser(_) => "admin_approve_user"
    case DeactivateUser(_) => "admin_deactivate_user"
    case GetStats => "admin_get_stats"
  }

  /** The payload each wrapper in `authApi`, `studentApi`, `teacherApi` and `adminApi` passes on. */
  function CallPayload(c: ApiCall): (p: Payload)
    requires WellFormed(c)
    ensures CarriesEmail(c) ==> "email" in p && p["email"] == NormaliseEmail(SuppliedEmail(c))
    ensures c.Signup? ==> p.Keys == c.form.Keys
    ensures c.Signup? ==> forall k :: k in c.form && k != "email" ==> p[k] == c.form[k]
    ensures c.LoginManual? || c.LoginGoogle? || c.ApproveUser? || c.DeactivateUser? ==>
      p == map["email" := NormaliseEmail(c.email)]
    ensures c.GetClasses? ==> p == map["email" := NormaliseEmail(c.email), "role" := "Teacher"]
    ensures c.GetProfile? || c.GetHistory? ==> p == map["studentId" := c.id]
    ensures c.GetUsers? || c.GetStats? ==> p == map[]
    ensures c.MarkAttendance? ==> p == c.data
  {
    match c
    case LoginManual(e) => map["email" := NormaliseEmail(e)]
    case LoginGoogle(e) => map["email" := NormaliseEmail(e)]
    case Signup(form) => form["email" := NormaliseEmail(form["email"])]
    case GetProfile(id) => map["studentId" := id]
    case GetHistory(id) => map["studentId" := id]
    case MarkAttendance(data) => data
    case GetClasses(e) => map["email" := NormaliseEmail(e), "role" := "Teacher"]
    case GetUsers => map[]
    case ApproveUser(e) => map["email" := NormaliseEmail(e)]
    case DeactivateUser(e) => map["email" := NormaliseEmail(e)]
    case GetStats => map[]
  }

  /**
   The posted body `{ action, ...payload }`: every payload field is sent as
   given, and a payload field named `action` would override the action.
   */
  function RequestBody(action: string, payload: Payload): (b: Payload)
    ensures b.Keys == payload.Keys + {"action"}
    ensures forall k :: k in payload ==> b[k] == payload[k]
    ensures "action" !in payload ==> b["action"] == action
  {
    map["action" := action] + payload
  }

  /**
   The JSON object a call posts. Only `signup` and `markAttendance` pass on
   fields their caller chose, so only they can override the action.
   */
  function Body(c: ApiCall): (b: Payload)
    requires WellFormed(c)
    ensures b.Keys == CallPayload(c).Keys + {"action"}
    ensures !c.Signup? && !c.MarkAttendance? ==> b["action"] == Action(c)
    ensures c.MarkAttendance? ==> forall k :: k in c.data ==> b[k] == c.data[k]
    ensures "action" !in CallPayload(c) ==> b["action"] == Action(c)
    ensures forall k :: k in CallPayload(c) ==> b[k] == CallPayload(c)[k]
  {
    RequestBody(Action(c), CallPayload(c))
  }

  /** Every e-mail address that reaches the backend is trimmed and lower-case. */
  lemma SentEmailIsNormalised(c: ApiCall)
    requires WellFormed(c) && CarriesEmail(c)
    ensures "email" in Body(c)
    ensures IsNormalisedEmail(Body(c)["email"])
    ensures Body(c)["email"] == NormaliseEmail(SuppliedEmail(c))
  {
    NormaliseEmailCharacterised(SuppliedEmail(c));
  }

  /** The same call with the caller's e-mail address replaced by `e`. */
  function WithEmail(c: ApiCall, e: string): (c': ApiCall)
    requires WellFormed(c) && CarriesEmail(c)
    ensures WellFormed(c') && CarriesEmail(c') && SuppliedEmail(c') == e && Action(c') == Action(c)
    ensures c.Signup? ==> c'.Signup? && c'.form.Keys == c.form.Keys
  {
    if c.Signup? then Signup(c.form["email" := e]) else c.(email := e)
  }

  /**
   The posted body depends on the caller's address only through its normal
   form, so any two spellings with the same normal form are sent alike.
   */
  lemma BodyDependsOnNormalForm(c: ApiCall, e: string)
    requires WellFormed(c) && CarriesEmail(c)
    ensures Body(WithEmail(c, e)) == Body(WithEmail(c, NormaliseEmail(e)))
  {
    if c.Signup? {
      SignupBodyDependsOnNormalForm(c.form, e);
    } else {
      OtherBodyDependsOnNormalForm(c, e);
    }
  }

  lemma SignupBodyDependsOnNormalForm(form: Payload, e: string)
    ensures Body(Signup(form["email" := e])) == Body(Signup(form["email" := NormaliseEmail(e)]))
  {
    var n := NormaliseEmail(e);
    SignupPayloadOverwritesEmail(form, e);
    SamePayloadSameBody(Signup(form["email" := e]), Signup(form["email" := n]));
  }

  lemma OtherBodyDependsOnNormalForm(c: ApiCall, e: string)
    requires CarriesEmail(c) && !c.Signup?
    ensures Body(c.(email := e)) == Body(c.(email := NormaliseEmail(e)))
  {
    var n := NormaliseEmail(e);
    NormaliseEmailIdempotent(e);
    SameNormalFormSamePayload(c.(email := e), c.(email := n));
    SamePayloadSameBody(c.(email := e), c.(email := n));
  }

  /** The signup payload is the form with its e-mail replaced by the normal form. */
  lemma SignupPayload(form: Payload)
    requires "email" in form
    ensures CallPayload(Signup(form)) == form["email" := NormaliseEmail(form["email"])]
  {
  }

  /** Signup overwrites the form's e-mail, so replacing it by its normal form beforehand changes nothing. */
  lemma SignupPayloadOverwritesEmail(form: Payload, e: string)
    ensures CallPayload(Signup(form["email" := e])) == CallPayload(Signup(form["email" := NormaliseEmail(e)]))
  {
    var n := NormaliseEmail(e);
    NormaliseEmailIdempotent(e);
    SignupPayload(form["email" := e]);
    SignupPayload(form["email" := n]);
    ReplaceTwice(form, "email", e, n, n);
  }

  /** Two calls with the same action and the same payload post the same body. */
  lemma SamePayloadSameBody(c1: ApiCall, c2: ApiCall)
    requires WellFormed(c1) && WellFormed(c2)
    requires Action(c1) == Action(c2) && CallPayload(c1) == CallPayload(c2)
    ensures Body(c1) == Body(c2)
  {
  }

  /** Replacing a field twice keeps only the second value. */
  lemma ReplaceTwice(m: Payload, k: string, a: string, b: string, v: string)
    ensures m[k := a][k := v] == m[k := b][k := v]
  {
    assert m[k := a][k := v] == m[k := v];
    assert m[k := b][k := v] == m[k := v];
  }

  /** The payload of an e-mail-carrying call other than signup depends on the address only through its normal form. */
  lemma SameNormalFormSamePayload(c: ApiCall, c': ApiCall)
    requires CarriesEmail(c) && !c.Signup? && CarriesEmail(c') && !c'.Signup?
    requires Action(c) == Action(c')
    requires NormaliseEmail(c.email) == NormaliseEmail(c'.email)
    ensures CallPayload(c) == CallPayload(c')
  {
  }

  /** Passing the address already in normal form produces the identical request body, for every call that carries one. */
  lemma NormalisedEmailSameBody(c: ApiCall)
    requires WellFormed(c) && CarriesEmail(c)
    ensures Body(c) == Body(WithEmail(c, NormaliseEmail(SuppliedEmail(c))))
  {
    var e := SuppliedEmail(c);
    assert WithEmail(c, e) == c by {
      if c.Signup? {
        assert c.form["email" := e] == c.form;
      }
    }
    BodyDependsOnNormalForm(c, e);
  }

  /** Each call names its own backend action. */
  lemma ActionsDistinguishCalls(c1: ApiCall, c2: ApiCall)
    requires Action(c1) == Action(c2)
    ensures c1.LoginManual? == c2.LoginManual? && c1.LoginGoogle? == c2.LoginGoogle?
    ensures c1.Signup? == c2.Signup? && c1.GetProfile? == c2.GetProfile?
    ensures c1.GetHistory? == c2.GetHistory? && c1.MarkAttendance? == c2.MarkAttendance?
    ensures c1.GetClasses? == c2.GetClasses? && c1.GetUsers? == c2.GetUsers?
    ensures c1.ApproveUser? == c2.ApproveUser? && c1.DeactivateUser? == c2.DeactivateUser?
    ensures c1.GetStats? == c2.GetStats?
  {
  }

  /** What `response.text()` parses to. */
  datatype ResponseBody<T> =
    | Unparseable
    /** `{ success, error, data }`; a missing or empty `error` is the empty string. */
    | Envelope(success: bool, error: string, data: T)

  /** The outcome of `fetch`: a rejected promise, or a response. */
  datatype Exchange<T> =
    | NetworkFailure(message: string)
    | Response(ok: bool, status: nat, body: ResponseBody<T>)

  const InvalidResponseMessage: string := "Invalid response from backend server."
  const BackendFailedMessage: string := "Backend operation failed"
  const ConnectionFailedMessage: string := "Connection to backend failed."

  function HttpErrorMessage(status: nat): string {
    "HTTP Error: " + NatToString(status)
  }

  /** How `callBackend` classifies an exchange; the outer `catch` rethrows `message || default`. */
  function CallBackend<T>(exchange: Exchange<T>): (r: Result<T>)
    ensures r.Ok? <==> exchange.Response? && exchange.ok && exchange.body.Envelope? && exchange.body.success
    ensures r.Ok? ==> r.value == exchange.body.data
    ensures r.Err? ==> r.message != ""
    ensures exchange.Response? && !exchange.ok ==> r == Err(HttpErrorMessage(exchange.status))
    ensures exchange.Response? && exchange.ok && exchange.body.Unparseable? ==> r == Err(InvalidResponseMessage)
    ensures exchange.Response? && exchange.ok && exchange.body.Envelope? && !exchange.body.success ==>
      r == Err(OrDefault(exchange.body.error, BackendFailedMessage))
    ensures exchange.NetworkFailure? ==> r == Err(OrDefault(exchange.message, ConnectionFailedMessage))
  {
    match exchange
    case NetworkFailure(m) => Err(OrDefault(m, ConnectionFailedMessage))
    case Response(ok, status, body) =>
      if !ok then Err(HttpErrorMessage(status))
      else match body
        case Unparseable => Err(InvalidResponseMessage)
        case Envelope(success, error, data) =>
          if !success then Err(OrDefault(error, BackendFailedMessage))
          else Ok(data)
  }

  /**
   A failure reported by the backend in an ok response, whatever its status,
   surfaces the backend's message, or the default when it sent none; a
   failed connection surfaces its own message or the connection default.
   */
  lemma BackendFailureMessage<T>(status: nat, error: string, data: T, network: string)
    ensures CallBackend(Response(true, status, Envelope(false, error, data))).Err?
    ensures error != "" ==> CallBackend(Response(true, status, Envelope(false, error, data))).message == error
    ensures error == "" ==> CallBackend(Response(true, status, Envelope(false, error, data))).message == BackendFailedMessage
    ensures network != "" ==> CallBackend<T>(NetworkFailure(network)).message == network
    ensures network == "" ==> CallBackend<T>(NetworkFailure(network)).message == ConnectionFailedMessage
  {
  }
}

=== FILE: app.dfy ===
/**
 The application shell: which page is shown, the signed-in user, and the
 copy of that user kept in browser storage so that a reload stays signed
 in. Storage is modelled as the optional user it holds.
 */
module App {
  import opened Types

  /** The current page; `Other` is any name a child passes to `onNavigate` that is not one of the four. */
  datatype Page = Home | LoginPage | SignupPage | Dashboard | Other(name: string)

  datatype AppState = AppState(page: Page, user: Option<User>, loading: bool, stored: Option<User>)

  /** The one dashboard panel each role sees. */
  datatype Panel = StudentPanel | TeacherPanel | AdminPanel

  /** What `renderContent` draws. */
  datatype View =
    | Spinner
    | HomeView
    | LoginView
    | SignupView
    | Blank
    | DashboardView(user: User, panels: seq<Panel>)

  function PageName(p: Page): string {
    match p
    case Home => "home"
    case LoginPage => "login"
    case SignupPage => "signup"
    case Dashboard => "dashboard"
    case Other(n) => n
  }

  /** The page `setCurrentPage(name)` selects. */
  function PageNamed(name: string): (p: Page)
    ensures PageName(p) == name
    ensures p.Other? <==> name !in {"home", "login", "signup", "dashboard"}
  {
    if name == "home" then Home
    else if name == "login" then LoginPage
    else if name == "signup" then SignupPage
    else if name == "dashboard" then Dashboard
    else Other(name)
  }

  /** Naming a page and selecting by that name give back the same page. */
  lemma PageNameRoundTrip(p: Page)
    requires p.Other? ==> p.name !in {"home", "login", "signup", "dashboard"}
    ensures PageNamed(PageName(p)) == p
  {
  }

  /** The first render, before the start-up effect has run. */
  function Mount(stored: Option<User>): (s: AppState)
    ensures s.loading && s.user.None? && s.page == Home && s.stored == stored
  {
    AppState(Home, None, true, stored)
  }

  /** The start-up effect: a saved user is restored and goes straight to the dashboard. */
  function Restore(s: AppState): (r: AppState)
    ensures !r.loading && r.stored == s.stored
    ensures s.stored.Some? ==> r.user == s.stored && r.page == Dashboard
    ensures s.stored.None? ==> r.user == s.user && r.page == s.page
  {
    match s.stored
    case Some(u) => s.(user := Some(u), page := Dashboard, loading := false)
    case None => s.(loading := false)
  }

  /** `handleAuthSuccess(user)`. */
  function AuthSuccess(s: AppState, u: User): (r: AppState)
    ensures r.user == Some(u) && r.stored == Some(u) && r.page == Dashboard && r.loading == s.loading
  {
    s.(user := Some(u), stored := Some(u), page := Dashboard)
  }

  /** `handleLogout()`. */
  function Logout(s: AppState): (r: AppState)
    ensures r.user.None? && r.stored.None? && r.page == Home && r.loading == s.loading
  {
    s.(user := None, stored := None, page := Home)
  }

  /** `onNavigate(name)` from a child page. */
  function Navigate(s: AppState, name: string): (r: AppState)
    ensures r.page == PageNamed(name) && r.user == s.user && r.stored == s.stored && r.loading == s.loading
  {
    s.(page := PageNamed(name))
  }

  /** The three role-guarded panels of the dashboard, in the order they are written. */
  function Panels(u: User): (ps: seq<Panel>)
    ensures |ps| == 1
    ensures ps[0] == StudentPanel <==> u.role == Student
    ensures ps[0] == TeacherPanel <==> u.role == Teacher
    ensures ps[0] == AdminPanel <==> u.role == Admin
  {
    (if u.role == Student then [StudentPanel] else [])
      + (if u.role == Teacher then [TeacherPanel] else [])
      + (if u.role == Admin then [AdminPanel] else [])
  }

  /**
   `renderContent()`, with the state it leaves behind: the dashboard with
   nobody signed in draws nothing and sends the shell home.
   */
  function Render(s: AppState): (r: (View, AppState))
    ensures s.loading ==> r == (Spinner, s)
    ensures r.1.user == s.user && r.1.stored == s.stored && r.1.loading == s.loading
    ensures !s.loading && s.page == Dashboard && s.user.None? ==> r == (Blank, s.(page := Home))
    ensures !s.loading && s.page == Dashboard && s.user.Some? ==>
      r.0 == DashboardView(s.user.value, Panels(s.user.value)) && r.1 == s
    ensures !s.loading && (s.page == Home || s.page.Other?) ==> r == (HomeView, s)
    ensures !s.loading && s.page == LoginPage ==> r == (LoginView, s)
    ensures !s.loading && s.page == SignupPage ==> r == (SignupView, s)
    ensures r.0.Blank? <==> !s.loading && s.page == Dashboard && s.user.None?
  {
    if s.loading then (Spinner, s)
    else
      match s.page
      case Home => (HomeView, s)
      case LoginPage => (LoginView, s)
      case SignupPage => (SignupView, s)
      case Dashboard =>
        if s.user.None? then (Blank, s.(page := Home))
        else (DashboardView(s.user.value, Panels(s.user.value)), s)
      case Other(_) => (HomeView, s)
  }

  /** Nobody is signed in before start-up; once started, the signed-in user and the stored user agree. */
  predicate Synced(s: AppState) {
    if s.loading then s.user.None? else s.user == s.stored
  }

  /**
   Every transition of the shell keeps the signed-in user and the stored copy
   in step. Only the spinner is drawn while loading, so the handlers of the
   child pages can only fire once start-up is over.
   */
  lemma SyncedPreserved(s: AppState, u: User, name: string)
    requires Synced(s)
    ensures Synced(Restore(s)) && Synced(Render(s).1)
    ensures !s.loading ==> Synced(AuthSuccess(s, u)) && Synced(Logout(s)) && Synced(Navigate(s, name))
  {
  }

  /** Start-up: a stored user lands on the dashboard, no stored user stays home. */
  lemma StartupRestores(stored: Option<User>)
    ensures Synced(Mount(stored))
    ensures Restore(Mount(stored)) == AppState(if stored.Some? then Dashboard else Home, stored, false, stored)
  {
  }

  /** A reload after signing in resumes the same user on the dashboard; after signing out it starts home with nobody. */
  lemma ReloadRoundTrip(s: AppState, u: User)
    ensures Restore(Mount(AuthSuccess(s, u).stored)) == AppState(Dashboard, Some(u), false, Some(u))
    ensures Restore(Mount(Logout(s).stored)) == AppState(Home, None, false, None)
  {
  }

  /** Reaching the dashboard with nobody signed in is undone on the next render. */
  lemma OrphanDashboardGoesHome(s: AppState)
    requires !s.loading && s.user.None?
    ensures Render(Navigate(s, "dashboard")).1.page == Home
    ensures Render(Render(Navigate(s, "dashboard")).1).0 == HomeView
  {
  }
}

=== FILE: login.dfy ===
/**
 The two sign-in paths of the login page and the role gate each applies.
 The page has a "Student" and a "Staff / Admin" side; an account looked up
 by e-mail is admitted or turned away with a message. The manual path
 rejects a mismatch in either direction. The Google path rejects only a staff
 account on the student side: a student account on the staff side is let in.
 */
module Login {
  import opened Types
  import opened Strings

  /** What the page hands to `onAuthSuccess`, or the message it shows. */
  datatype Decision = Accept(user: User) | Reject(message: string)

  /** The page's own state around an attempt. */
  datatype LoginForm = LoginForm(loading: bool, error: string)

  const ManualNotFound: string := "Access Denied: Account not found."
  const ManualDefault: string := "Login failed."
  const GoogleNotFound: string := "Access Denied: Account not found in our database."
  const GoogleDefault: string := "Google Sign-In failed."

  function StaffAccountOnStudentSide(role: UserRole): string {
    "Account identified as " + RoleName(role) + ". Please switch to Staff login."
  }

  const StudentAccountOnStaffSide: string := "Account identified as Student. Please switch to Student login."

  function GoogleStaffOnStudentSide(role: UserRole): string {
    "Access Denied: This account is registered as a " + RoleName(role) + ". Please switch to Staff login."
  }

  /**
   `handleManualLogin`, given the side selected and the outcome of
   `authApi.loginManual` (a thrown message, or the account found, if any).
   */
  function ManualLogin(selected: UserRole, lookup: Result<Option<User>>): (d: Decision)
    ensures d.Accept? <==> lookup.Ok? && lookup.value.Some? && (selected == Student <==> lookup.value.value.role == Student)
    ensures d.Accept? ==> d.user == lookup.value.value
    ensures d.Reject? && lookup.Ok? ==> d.message != ""
  {
    match lookup
    case Err(m) => Reject(m)
    case Ok(None) => Reject(ManualNotFound)
    case Ok(Some(account)) =>
      var isStaffSelected := selected == Teacher || selected == Admin;
      var isStaffAccount := account.role == Teacher || account.role == Admin;
      if selected == Student && isStaffAccount then Reject(StaffAccountOnStudentSide(account.role))
      else if isStaffSelected && account.role == Student then Reject(StudentAccountOnStaffSide)
      else Accept(account)
  }

  /**
   `handleGoogleResponse`, given the e-mail decoded from the credential (or
   the message decoding threw) and the outcome of `authApi.loginGoogle`.
   The lookup is only made once the e-mail has been decoded.
   */
  function GoogleLogin(selected: UserRole, email: Result<string>, lookup: Result<Option<User>>): (d: Decision)
    ensures d.Accept? <==>
      email.Ok? && lookup.Ok? && lookup.value.Some? && !(selected == Student && lookup.value.value.role != Student)
    ensures d.Accept? ==> d.user == lookup.value.value
    ensures d.Reject? && email.Ok? && lookup.Ok? ==> d.message != ""
  {
    match email
    case Err(m) => Reject(m)
    case Ok(_) =>
      match lookup
      case Err(m) => Reject(m)
      case Ok(None) => Reject(GoogleNotFound)
      case Ok(Some(account)) =>
        if selected == Student && account.role != Student then Reject(GoogleStaffOnStudentSide(account.role))
        else Accept(account)
  }

  /** Every account the manual path admits, the Google path admits too. */
  lemma GoogleAdmitsWhatManualAdmits(selected: UserRole, email: string, lookup: Result<Option<User>>)
    ensures ManualLogin(selected, lookup).Accept? ==> GoogleLogin(selected, Ok(email), lookup).Accept?
  {
  }

  /**
   The paths differ exactly on a student account signing in on the staff
   side: manual rejects it, Google admits it.
   */
  lemma PathsDifferOnlyOnStaffSide(selected: UserRole, email: string, account: User)
    ensures ManualLogin(selected, Ok(Some(account))).Accept? != GoogleLogin(selected, Ok(email), Ok(Some(account))).Accept?
        <==> IsStaff(selected) && account.role == Student
    ensures IsStaff(selected) && account.role == Student ==>
      ManualLogin(selected, Ok(Some(account))) == Reject(StudentAccountOnStaffSide)
  {
  }

  /** The manual path's two mismatch messages, one per direction. */
  lemma ManualMismatchMessages(account: User)
    ensures IsStaff(account.role) ==>
      ManualLogin(Student, Ok(Some(account))) == Reject(StaffAccountOnStudentSide(account.role))
    ensures account.role == Student ==>
      ManualLogin(Teacher, Ok(Some(account))) == Reject(StudentAccountOnStaffSide)
      && ManualLogin(Admin, Ok(Some(account))) == Reject(StudentAccountOnStaffSide)
  {
  }

  /**
   The form after an attempt. `setLoading(true); setError('')` runs first, so
   the error shown before has no bearing; afterwards the error is
   `err.message || fallback` for a rejection, and `loading` is cleared.
   */
  function Attempt(d: Decision, fallback: string): (r: LoginForm)
    ensures !r.loading
    ensures fallback != "" ==> (r.error == "" <==> d.Accept?)
    ensures d.Reject? && d.message != "" ==> r.error == d.message
    ensures d.Reject? ==> r.error == OrDefault(d.message, fallback)
    ensures d.Accept? ==> r.error == ""
  {
    match d
    case Accept(_) => LoginForm(false, "")
    case Reject(m) => LoginForm(false, OrDefault(m, fallback))
  }

  /** The manual path's error line after an attempt. */
  function ManualAttempt(selected: UserRole, lookup: Result<Option<User>>): (r: LoginForm)
    ensures !r.loading
    ensures r.error == "" <==> ManualLogin(selected, lookup).Accept?
    ensures lookup.Err? ==> r.error == OrDefault(lookup.message, ManualDefault)
  {
    Attempt(ManualLogin(selected, lookup), ManualDefault)
  }

  /** The Google path's error line after an attempt. */
  function GoogleAttempt(selected: UserRole, email: Result<string>, lookup: Result<Option<User>>): (r: LoginForm)
    ensures !r.loading
    ensures r.error == "" <==> GoogleLogin(selected, email, lookup).Accept?
    ensures email.Err? ==> r.error == OrDefault(email.message, GoogleDefault)
  {
    Attempt(GoogleLogin(selected, email, lookup), GoogleDefault)
  }
}

=== FILE: strings.dfy ===
/**
 The string operations the pages use: JavaScript's `String.prototype.trim`,
 `toLowerCase` (ASCII letters only), the `a || b` fallback on strings, the
 decimal rendering of a non-negative integer, and `padStart(2, '0')`.
 */
module Strings {

  /** JavaScript's `m || d` when `m` is a string: the empty string is falsy. */
  function OrDefault(m: string, d: string): (r: string)
    ensures r == m || r == d
    ensures r == "" ==> m == "" && d == ""
    ensures m != "" ==> r == m
    ensures m == "" ==> r == d
  {
    if m == "" then d else m
  }

  /** The characters `trim` removes: ECMAScript WhiteSpace and LineTerminator. */
  predicate IsWhitespace(c: char) {
    || c == '\t' || c == '\n' || c == '\U{000B}' || c == '\U{000C}' || c == '\r'
    || c == ' ' || c == '\U{00A0}' || c == '\U{1680}'
    || ('\U{2000}' <= c <= '\U{200A}')
    || c == '\U{2028}' || c == '\U{2029}' || c == '\U{202F}' || c == '\U{205F}'
    || c == '\U{3000}' || c == '\U{FEFF}'
  }

  predicate AllWhitespace(s: string) {
    forall i :: 0 <= i < |s| ==> IsWhitespace(s[i])
  }

  /** Neither end of `s` is whitespace. */
  predicate IsTrimmed(s: string) {
    |s| == 0 || (!IsWhitespace(s[0]) && !IsWhitespace(s[|s| - 1]))
  }

  /** The length of the whitespace run at the start of `s`. */
  function LeadingWhitespace(s: string): (n: nat)
    ensures n <= |s|
    ensures AllWhitespace(s[..n])
    ensures n < |s| ==> !IsWhitespace(s[n])
  {
    if |s| == 0 || !IsWhitespace(s[0]) then 0
    else 1 + LeadingWhitespace(s[1..])
  }

  /** The index where the whitespace run at the end of `s` begins. */
  function TrailingWhitespace(s: string): (n: nat)
    ensures n <= |s|
    ensures AllWhitespace(s[n..])
    ensures 0 < n ==> !IsWhitespace(s[n - 1])
  {
    if |s| == 0 || !IsWhitespace(s[|s| - 1]) then |s|
    else TrailingWhitespace(s[..|s| - 1])
  }

  /** `s` is `r` with nothing but whitespace added before and after. */
  ghost predicate WrappedInWhitespace(s: string, r: string) {
    exists pre, post :: s == pre + r + post && AllWhitespace(pre) && AllWhitespace(post)
  }

  /** `s.trim()`: `s` is the result wrapped in whitespace on both sides. */
  function Trim(s: string): (r: string)
    ensures IsTrimmed(r)
    ensures WrappedInWhitespace(s, r)
  {
    var a := LeadingWhitespace(s);
    var t := s[a..];
    var b := TrailingWhitespace(t);
    var r := t[..b];
    assert s == s[..a] + r + t[b..];
    assert WrappedInWhitespace(s, r);
    assert IsTrimmed(r) by {
      if 0 < |r| {
        assert r[0] == s[a];
      }
    }
    r
  }

  /** Trimming changes nothing once neither end is whitespace. */
  lemma TrimTrimmed(s: string)
    requires IsTrimmed(s)
    ensures Trim(s) == s
  {
    assert LeadingWhitespace(s) == 0;
    assert TrailingWhitespace(s) == |s|;
  }

  predicate IsUpper(c: char) {
    'A' <= c <= 'Z'
  }

  predicate HasNoUpper(s: string) {
    forall i :: 0 <= i < |s| ==> !IsUpper(s[i])
  }

  /** The lower-case form of one character: ASCII capitals move down by 32 code points. */
  function LowerChar(c: char): (l: char)
    ensures !IsUpper(l)
    ensures !IsUpper(c) ==> l == c
    ensures IsUpper(c) ==> 'a' <= l <= 'z' && l as int == c as int + 32
  {
    if IsUpper(c) then (c as int + 32) as char else c
  }

  /**
   `s.toLowerCase()` restricted to ASCII: each upper-case letter becomes the
   same letter in lower case and every other character is kept.
   */
  function ToLower(s: string): (r: string)
    ensures |r| == |s|
    ensures HasNoUpper(r)
    ensures forall i :: 0 <= i < |s| ==> r[i] == LowerChar(s[i])
  {
    seq(|s|, i requires 0 <= i < |s| => LowerChar(s[i]))
  }

  /** Lower-casing neither creates nor removes whitespace. */
  lemma ToLowerKeepsTrimmed(s: string)
    requires IsTrimmed(s)
    ensures IsTrimmed(ToLower(s))
  {
    if 0 < |s| {
      var r := ToLower(s);
      assert r[0] == LowerChar(s[0]) && r[|r| - 1] == LowerChar(s[|s| - 1]);
    }
  }

  /** Lower-casing a string with no capitals changes nothing. */
  lemma ToLowerNoUpper(s: string)
    requires HasNoUpper(s)
    ensures ToLower(s) == s
  {
    var r := ToLower(s);
    forall i | 0 <= i < |s|
      ensures r[i] == s[i]
    {
      assert !IsUpper(s[i]);
    }
  }

  /** The form in which the client sends every e-mail address to the backend. */
  predicate IsNormalisedEmail(e: string) {
    IsTrimmed(e) && HasNoUpper(e)
  }

  /** `email.trim().toLowerCase()`. */
  function NormaliseEmail(e: string): (n: string)
    ensures IsNormalisedEmail(n)
  {
    ToLowerKeepsTrimmed(Trim(e));
    ToLower(Trim(e))
  }

  /** Normalising yields a normalised address, and a normalised address is its own normal form. */
  lemma NormaliseEmailCharacterised(e: string)
    ensures IsNormalisedEmail(NormaliseEmail(e))
    ensures IsNormalisedEmail(e) <==> NormaliseEmail(e) == e
  {
    ToLowerKeepsTrimmed(Trim(e));
    if IsNormalisedEmail(e) {
      TrimTrimmed(e);
      ToLowerNoUpper(e);
    }
  }

  lemma NormaliseEmailIdempotent(e: string)
    ensures NormaliseEmail(NormaliseEmail(e)) == NormaliseEmail(e)
  {
    NormaliseEmailCharacterised(e);
    NormaliseEmailCharacterised(NormaliseEmail(e));
  }

  predicate IsDigit(c: char) {
    '0' <= c <= '9'
  }

  predicate AllDigits(s: string) {
    forall i :: 0 <= i < |s| ==> IsDigit(s[i])
  }

  function DigitChar(d: nat): (c: char)
    requires d < 10
    ensures IsDigit(c)
  {
    ('0' as int + d) as char
  }

  /** The value of a string of decimal digits; the inverse of `NatToString`. */
  function DigitsValue(s: string): nat
    requires AllDigits(s)
  {
    if |s| == 0 then 0
    else DigitsValue(s[..|s| - 1]) * 10 + (s[|s| - 1] as int - '0' as int)
  }

  /** `n.toString()` for a non-negative integer: decimal digits, no leading zero. */
  function NatToString(n: nat): (s: string)
    ensures 0 < |s|
    ensures AllDigits(s)
    ensures |s| == 1 <==> n < 10
    ensures s[0] == '0' ==> n == 0
  {
    if n < 10 then [DigitChar(n)]
    else NatToString(n / 10) + [DigitChar(n % 10)]
  }

  lemma {:induction false} NatToStringRoundTrip(n: nat)
    ensures DigitsValue(NatToString(n)) == n
  {
    if n >= 10 {
      var s := NatToString(n);
      assert s[..|s| - 1] == NatToString(n / 10);
      NatToStringRoundTrip(n / 10);
    }
  }

  /** `s.padStart(2, '0')`. */
  function PadStart2(s: string): (r: string)
    ensures 2 <= |r|
    ensures |s| >= 2 ==> r == s
    ensures |s| < 2 ==> |r| == 2 && r[2 - |s|..] == s && forall i :: 0 <= i < 2 - |s| ==> r[i] == '0'
  {
    if |s| == 0 then "00"
    else if |s| == 1 then "0" + s
    else s
  }
}

=== FILE: student.dfy ===
/**
 The student's side of a QR attendance claim: `handleScan` decides whether a
 scanned code is submitted to the backend and builds the `markAttendance`
 payload; the profile card flags attendance below 75 percent.

 The clock reading, the geolocation outcome, the result of `JSON.parse` on
 the scanned text and the outcome of the `markAttendance` request are all
 inputs. The only check on the credential is the client-side expiry test;
 the token is forwarded, never verified.
 */
module StudentDashboard {
  import opened Types
  import opened Strings
  import Api
  import TeacherDashboard

  /**
   The `expiryTimestamp` property of the parsed object, classed by what the
   comparison `now > data.expiryTimestamp` makes of it after converting it to
   a number. `null`, `false`, `""` and `[]` convert to 0 and `true` to 1.
   A JSON number converts to itself, and so does a string or one-element
   array that reads as one. `now` is a whole number of milliseconds, so
   comparing it with a fractional value is the same as comparing it with that
   value's floor, which `Finite` holds. A missing property, and any other
   string or object, converts to NaN, and a comparison with NaN is false.
   */
  datatype ExpiryField =
    | Missing
    | Null
    | Boolean(flag: bool)
    | Finite(floor: int)
    | NotANumber

  /** The number the comparison converts the property to; `None` is NaN. */
  function ToNumber(f: ExpiryField): (n: Option<int>)
    ensures n.None? <==> f.Missing? || f.NotANumber?
  {
    match f
    case Missing => None
    case Null => Some(0)
    case Boolean(b) => Some(if b then 1 else 0)
    case Finite(x) => Some(x)
    case NotANumber => None
  }

  /**
   What `JSON.parse` made of the scanned text and the reads of its fields: a
   thrown error (including a parse to `null`, whose field read throws), or a
   value whose string fields may be missing (`None`).
   */
  datatype Decoded =
    | Malformed(message: string)
    | Scanned(classId: Option<string>, expiryTimestamp: ExpiryField, token: Option<string>)

  /** What parsing a teacher's serialised `QRData` yields. */
  function Decode(q: QRData): Decoded {
    Scanned(Some(q.classId), Finite(q.expiryTimestamp), Some(q.token))
  }

  /** A successful geolocation reading, with each coordinate already rendered as text. */
  datatype Coordinates = Coordinates(latitude: string, longitude: string)

  /** The part of the dashboard's state that `handleScan` reads and writes. */
  datatype ScanView = ScanView(loading: bool, showScanner: bool)

  /** The state after `handleScan`, the `markAttendance` body it sent (if any) and the alert it showed (if any). */
  datatype ScanResult = ScanResult(view: ScanView, request: Option<Api.Payload>, alert: Option<string>)

  const UnknownLocation: string := "Unknown"
  const ExpiredAlert: string := "This QR code has expired. Please ask the teacher for a new one."
  const FailureAlert: string := "Invalid QR Code or Attendance Failure."

  /** The attendance percentage below which the profile is flagged. */
  const Threshold: real := 75.0

  /** `now > data.expiryTimestamp`, after the property is converted to a number. */
  predicate IsExpired(now: int, expiry: ExpiryField): (expired: bool)
    ensures expiry.Missing? || expiry.NotANumber? ==> !expired
    ensures expiry.Null? || expiry == Boolean(false) ==> (expired <==> now > 0)
    ensures expiry == Boolean(true) ==> (expired <==> now > 1)
    ensures expiry.Finite? ==> (expired <==> now > expiry.floor)
  {
    var n := ToNumber(expiry);
    n.Some? && now > n.value
  }

  /** `'Unknown'`, or `` `${latitude}, ${longitude}` `` when a position was obtained. */
  function LocationString(position: Option<Coordinates>): (r: string)
    ensures position.None? <==> r == UnknownLocation
    ensures position.Some? ==> r == position.value.latitude + ", " + position.value.longitude
  {
    match position
    case None => "Unknown"
    case Some(p) =>
      var r := p.latitude + ", " + p.longitude;
      assert r[|p.latitude|] == ',';
      r
  }

  /** A field that is `undefined` is dropped from the posted JSON. */
  function Field(name: string, value: Option<string>): (p: Api.Payload)
    ensures name in p <==> value.Some?
    ensures p.Keys <= {name}
    ensures name in p ==> p[name] == value.value
  {
    if value.Some? then map[name := value.value] else map[]
  }

  /** The object passed to `studentApi.markAttendance`. */
  function MarkPayload(studentId: Option<string>, classId: Option<string>, location: string, token: Option<string>): (p: Api.Payload)
    ensures p.Keys == {"location", "method"} + Field("studentId", studentId).Keys
      + Field("classId", classId).Keys + Field("token", token).Keys
    ensures p["method"] == "QR" && p["location"] == location
    ensures "studentId" in p <==> studentId.Some?
    ensures "studentId" in p ==> p["studentId"] == studentId.value
    ensures "classId" in p <==> classId.Some?
    ensures "classId" in p ==> p["classId"] == classId.value
    ensures "token" in p <==> token.Some?
    ensures "token" in p ==> p["token"] == token.value
  {
    Field("studentId", studentId) + Field("classId", classId)
      + map["location" := location, "method" := "QR"] + Field("token", token)
  }

  /** `String(x)` for an optional string field, as a template literal renders it. */
  function Show(v: Option<string>): string {
    if v.Some? then v.value else "undefined"
  }

  /**
   `handleScan(raw)`. An empty or re-entrant scan does nothing. Otherwise the
   scan ends with `loading` cleared and one alert shown; the attendance
   request is sent only for a parsed code that has not expired.
   `markFailure` is the message `markAttendance` rejects with, if it does.
   */
  function HandleScan(view: ScanView, raw: string, decoded: Decoded, now: int,
                      position: Option<Coordinates>, user: User, markFailure: Option<string>): (r: ScanResult)
    ensures raw == "" || view.loading ==> r == ScanResult(view, None, None)
    ensures raw != "" && !view.loading ==> !r.view.loading && r.alert.Some?
    ensures r.request.Some? <==>
      raw != "" && !view.loading && decoded.Scanned? && !IsExpired(now, decoded.expiryTimestamp)
    ensures r.request.Some? ==>
      r.request.value == MarkPayload(user.studentId, decoded.classId, LocationString(position), decoded.token)
    ensures r.view.showScanner != view.showScanner ==>
      r.view.showScanner == false && (r.alert == Some(ExpiredAlert) || (r.request.Some? && markFailure.None?))
    ensures raw != "" && !view.loading && decoded.Malformed? ==>
      r == ScanResult(view.(loading := false), None, Some(OrDefault(decoded.message, FailureAlert)))
    ensures raw != "" && !view.loading && decoded.Scanned? && IsExpired(now, decoded.expiryTimestamp) ==>
      r == ScanResult(ScanView(false, false), None, Some(ExpiredAlert))
    ensures r.request.Some? && markFailure.None? ==>
      !r.view.showScanner && r.alert == Some("Success! Attendance marked for " + Show(decoded.classId) + ".")
    ensures r.request.Some? && markFailure.Some? ==>
      r.view.showScanner == view.showScanner && r.alert == Some(OrDefault(markFailure.value, FailureAlert))
  {
    if raw == "" || view.loading then ScanResult(view, None, None)
    else
      match decoded
      case Malformed(m) => ScanResult(view.(loading := false), None, Some(OrDefault(m, FailureAlert)))
      case Scanned(classId, expiry, token) =>
        if IsExpired(now, expiry) then ScanResult(ScanView(false, false), None, Some(ExpiredAlert))
        else
          var request := MarkPayload(user.studentId, classId, LocationString(position), token);
          match markFailure
          case None =>
            ScanResult(ScanView(false, false), Some(request), Some("Success! Attendance marked for " + Show(classId) + "."))
          case Some(m) =>
            ScanResult(view.(loading := false), Some(request), Some(OrDefault(m, FailureAlert)))
  }

  /** The expiry test is inclusive: a scan at the expiry instant is submitted, one a millisecond later is not. */
  lemma ExpiryBoundary(view: ScanView, raw: string, classId: Option<string>, expiry: int, token: Option<string>,
                       now: int, position: Option<Coordinates>, user: User, markFailure: Option<string>)
    requires raw != "" && !view.loading
    ensures var r := HandleScan(view, raw, Scanned(classId, Finite(expiry), token), now, position, user, markFailure);
      r.request.Some? <==> now <= expiry
    ensures HandleScan(view, raw, Scanned(classId, Finite(expiry), token), expiry, position, user, markFailure).request.Some?
    ensures var r := HandleScan(view, raw, Scanned(classId, Finite(expiry), token), expiry + 1, position, user, markFailure);
      r.request.None? && r.alert == Some(ExpiredAlert) && !r.view.showScanner
  {
  }

  /**
   A missing expiry, or one that converts to NaN, is never treated as expired.
   `null`, `false` and `""` compare as 0, so at any positive time they are.
   */
  lemma ExpiryConversion(view: ScanView, raw: string, classId: Option<string>, token: Option<string>,
                         now: int, position: Option<Coordinates>, user: User, markFailure: Option<string>)
    requires raw != "" && !view.loading
    ensures HandleScan(view, raw, Scanned(classId, Missing, token), now, position, user, markFailure).request.Some?
    ensures HandleScan(view, raw, Scanned(classId, NotANumber, token), now, position, user, markFailure).request.Some?
    ensures now > 0 ==>
      && HandleScan(view, raw, Scanned(classId, Null, token), now, position, user, markFailure).alert == Some(ExpiredAlert)
      && HandleScan(view, raw, Scanned(classId, Boolean(false), token), now, position, user, markFailure).alert == Some(ExpiredAlert)
      && HandleScan(view, raw, Scanned(classId, Finite(0), token), now, position, user, markFailure).alert == Some(ExpiredAlert)
  {
  }

  /** Text that does not parse leads to an alert and no request, whatever the clock says. */
  lemma MalformedIsNotSubmitted(view: ScanView, raw: string, message: string,
                                now: int, position: Option<Coordinates>, user: User, markFailure: Option<string>)
    requires raw != "" && !view.loading
    ensures var r := HandleScan(view, raw, Malformed(message), now, position, user, markFailure);
      r.request.None? && !r.view.loading && r.view.showScanner == view.showScanner
      && r.alert == Some(if message == "" then FailureAlert else message)
  {
  }

  /**
   End to end: a code freshly generated by `startSession` at `issuedAt` is
   submitted exactly when scanned no later than two minutes after, and the
   request names the student, the session's class, and the minted token.
   */
  lemma FreshCredentialClaim(board: TeacherDashboard.Dashboard, cls: ClassSession, issuedAt: int, today: string,
                             token: string, view: ScanView, raw: string, now: int,
                             position: Option<Coordinates>, user: User, markFailure: Option<string>)
    requires raw != "" && !view.loading
    ensures var q := TeacherDashboard.StartSession(board, cls, issuedAt, today, token).qrData.value;
      var r := HandleScan(view, raw, Decode(q), now, position, user, markFailure);
      && (r.request.Some? <==> now <= issuedAt + TeacherDashboard.ValidityMillis)
      && (r.request.Some? ==>
            && r.request.value["classId"] == cls.classId
            && r.request.value["token"] == token
            && r.request.value["method"] == "QR"
            && r.request.value["location"] == LocationString(position)
            && ("studentId" in r.request.value <==> user.studentId.Some?))
  {
  }

  /**
   `profile.attendancePercent < 75`, with the percentage already converted to
   a number; `None` is NaN, as for a missing percentage.
   */
  predicate LowAttendance(attendancePercent: Option<real>): (low: bool)
    ensures attendancePercent.None? ==> !low
    ensures attendancePercent.Some? ==> (low <==> attendancePercent.value < Threshold)
  {
    attendancePercent.Some? && attendancePercent.value < Threshold
  }

  /** The flag is a strict threshold at 75: exactly 75 is not low, and anything below is. */
  lemma LowAttendanceThreshold(p: real, q: real)
    ensures !LowAttendance(Some(75.0))
    ensures LowAttendance(Some(p)) <==> p < 75.0
    ensures p <= q && LowAttendance(Some(q)) ==> LowAttendance(Some(p))
  {
  }
}

=== FILE: teacher.dfy ===
/**
 The teacher's live attendance session: generating the QR credential for a
 class, the once-a-second countdown that withdraws it after two minutes,
 the periodic poll of today's present count, and the `m:ss` rendering of the
 remaining time.

 The dashboard's React state is the record `Dashboard`; each handler or
 effect run is a pure transition on it. One `Tick` is one firing of the
 interval together with the re-run of the effect that its state change causes.
 */
module TeacherDashboard {
  import opened Types
  import opened Strings

  /** The countdown's starting value, in seconds. */
  const SessionSeconds: int := 120

  /** How long a credential is valid: `2 * 60 * 1000` milliseconds. */
  const ValidityMillis: int := 2 * 60 * 1000

  /** A poll of the present count is started on ticks whose remaining time is a multiple of this. */
  const PollPeriod: int := 5

  datatype Dashboard = Dashboard(
    activeSession: Option<ClassSession>,
    qrData: Option<QRData>,
    timeLeft: int,
    presentCount: nat)

  /** The state when the dashboard mounts. */
  const Initial: Dashboard := Dashboard(None, None, SessionSeconds, 0)

  /** A displayed credential always belongs to the active class and spans exactly the validity period. */
  predicate Inv(s: Dashboard) {
    && 0 <= s.timeLeft <= SessionSeconds
    && (s.qrData.Some? ==>
          && 0 < s.timeLeft
          && s.activeSession.Some?
          && s.qrData.value.classId == s.activeSession.value.classId
          && s.qrData.value.expiryTimestamp == s.qrData.value.startTimestamp + ValidityMillis)
  }

  lemma InitialInv()
    ensures Inv(Initial)
    ensures Initial.qrData.None? && Initial.activeSession.None? && Initial.presentCount == 0
  {
  }

  /** `startSession(cls)`, with the clock reading, today's date and a fresh token supplied by the caller. */
  function StartSession(s: Dashboard, cls: ClassSession, now: int, today: string, token: string): (r: Dashboard)
    ensures r.activeSession == Some(cls)
    ensures r.qrData.Some?
    ensures r.qrData.value.classId == cls.classId && r.qrData.value.date == today
    ensures r.qrData.value.startTimestamp == now
    ensures r.qrData.value.expiryTimestamp - r.qrData.value.startTimestamp == ValidityMillis
    ensures r.qrData.value.token == token
    ensures r.timeLeft == SessionSeconds && r.presentCount == 0
    ensures Inv(r)
  {
    var expiry := now + 2 * 60 * 1000;
    Dashboard(Some(cls), Some(QRData(cls.classId, today, now, expiry, token)), 120, 0)
  }

  /** Starting a session discards whatever session, credential, countdown and count were there before. */
  lemma StartForgetsPrevious(s1: Dashboard, s2: Dashboard, cls: ClassSession, now: int, today: string, token: string)
    ensures StartSession(s1, cls, now, today, token) == StartSession(s2, cls, now, today, token)
  {
  }

  /** The interval is running: a credential is shown and time remains. */
  predicate Armed(s: Dashboard) {
    s.qrData.Some? && s.timeLeft > 0
  }

  /** The countdown effect when no interval is armed: at zero the credential is withdrawn. */
  function Settle(s: Dashboard): (r: Dashboard)
    ensures r.timeLeft == s.timeLeft && r.activeSession == s.activeSession && r.presentCount == s.presentCount
    ensures r.qrData.None? <==> s.qrData.None? || s.timeLeft == 0
    ensures r.qrData.Some? ==> r.qrData == s.qrData
  {
    if !Armed(s) && s.timeLeft == 0 then s.(qrData := None) else s
  }

  /** One second of the countdown. */
  function Tick(s: Dashboard): (r: Dashboard)
    ensures !Armed(s) ==> r == s
    ensures Armed(s) ==> r.timeLeft == s.timeLeft - 1
    ensures Armed(s) ==> (r.qrData.Some? <==> s.timeLeft > 1)
    ensures r.qrData.Some? ==> r.qrData == s.qrData
    ensures r.activeSession == s.activeSession && r.presentCount == s.presentCount
    ensures Inv(s) ==> Inv(r)
  {
    if Armed(s) then Settle(s.(timeLeft := s.timeLeft - 1)) else s
  }

  /**
   Whether this tick also starts a poll of the present count. The interval callback
   tests the remaining time it was created with, i.e. the value before the
   decrement.
   */
  predicate PollDue(s: Dashboard): (due: bool)
    ensures due ==> Tick(s).timeLeft == s.timeLeft - 1 && (Tick(s).timeLeft + 1) % PollPeriod == 0
    ensures due ==> s.qrData.Some? && s.timeLeft >= PollPeriod
  {
    Armed(s) && s.timeLeft % PollPeriod == 0
  }

  /** The close button: `setQrData(null)`; the countdown value is left as it was. */
  function Close(s: Dashboard): (r: Dashboard)
    ensures r.qrData.None? && !Armed(r)
    ensures r.activeSession == s.activeSession && r.timeLeft == s.timeLeft && r.presentCount == s.presentCount
    ensures Inv(s) ==> Inv(r)
  {
    Settle(s.(qrData := None))
  }

  /** A history record counts toward the live total when it is for this class and today. */
  predicate CountsToward(h: AttendanceRecord, classId: string, today: string) {
    h.classId == classId && h.date == today
  }

  /** `history.filter(h => h.classId === classId && h.date === today)`. */
  function TodaysRecords(history: seq<AttendanceRecord>, classId: string, today: string): (r: seq<AttendanceRecord>)
    ensures |r| <= |history|
    ensures forall i :: 0 <= i < |r| ==> CountsToward(r[i], classId, today)
    ensures forall i :: 0 <= i < |history| && CountsToward(history[i], classId, today) ==> history[i] in r
    ensures forall x :: x in r ==> x in history
  {
    if |history| == 0 then []
    else
      var last := history[|history| - 1];
      TodaysRecords(history[..|history| - 1], classId, today) + if CountsToward(last, classId, today) then [last] else []
  }

  /** The positions in the history that count toward the live total. */
  function MatchingPositions(history: seq<AttendanceRecord>, classId: string, today: string): set<nat> {
    set i: nat | i < |history| && CountsToward(history[i], classId, today)
  }

  /** The present count is exactly the number of history positions for this class and today. */
  lemma {:induction false} PresentCountIsMatchingPositions(history: seq<AttendanceRecord>, classId: string, today: string)
    ensures |TodaysRecords(history, classId, today)| == |MatchingPositions(history, classId, today)|
  {
    if |history| > 0 {
      var n := |history| - 1;
      PresentCountIsMatchingPositions(history[..n], classId, today);
      MatchingPositionsSnoc(history, classId, today);
      assert |TodaysRecords(history, classId, today)|
          == |TodaysRecords(history[..n], classId, today)| + (if CountsToward(history[n], classId, today) then 1 else 0);
    }
  }

  /** Appending a record adds its position exactly when it counts. */
  lemma MatchingPositionsSnoc(history: seq<AttendanceRecord>, classId: string, today: string)
    requires |history| > 0
    ensures var n := |history| - 1;
      |MatchingPositions(history, classId, today)|
      == |MatchingPositions(history[..n], classId, today)| + (if CountsToward(history[n], classId, today) then 1 else 0)
  {
    var n := |history| - 1;
    var before := MatchingPositions(history[..n], classId, today);
    var after := MatchingPositions(history, classId, today);
    var last: set<nat> := if CountsToward(history[n], classId, today) then {n} else {};
    forall i | i in after
      ensures i in before + last
    {
      if i < n {
        assert history[..n][i] == history[i];
      }
    }
    forall i | i in before + last
      ensures i in after
    {
      if i in before {
        assert history[..n][i] == history[i];
      }
    }
    assert after == before + last;
    assert n !in before;
  }

  /** `fetchAttendanceCount()`: a failed history request leaves the count as it was. */
  function Poll(s: Dashboard, history: Result<seq<AttendanceRecord>>, today: string): (r: Dashboard)
    ensures s.activeSession.None? || history.Err? ==> r == s
    ensures s.activeSession.Some? && history.Ok? ==>
      r.presentCount == |MatchingPositions(history.value, s.activeSession.value.classId, today)|
    ensures s.activeSession.Some? && history.Ok? ==> r.presentCount <= |history.value|
    ensures Inv(s) ==> Inv(r)
    ensures r.activeSession == s.activeSession && r.qrData == s.qrData && r.timeLeft == s.timeLeft
  {
    match s.activeSession
    case None => s
    case Some(cls) =>
      match history
      case Err(_) => s
      case Ok(h) =>
        PresentCountIsMatchingPositions(h, cls.classId, today);
        s.(presentCount := |TodaysRecords(h, cls.classId, today)|)
  }

  /** The state after `k` seconds of countdown. */
  function Ticks(s: Dashboard, k: nat): Dashboard
    decreases k
  {
    if k == 0 then s else Ticks(Tick(s), k - 1)
  }

  /** How many of the next `k` ticks start a poll of the present count. */
  function PollsDuring(s: Dashboard, k: nat): nat
    decreases k
  {
    if k == 0 then 0 else (if PollDue(s) then 1 else 0) + PollsDuring(Tick(s), k - 1)
  }

  /** While time remains, each second takes exactly one off and the credential stays; at zero it is withdrawn. */
  lemma {:induction false} Countdown(s: Dashboard, k: nat)
    requires Inv(s) && s.qrData.Some? && k <= s.timeLeft
    ensures Ticks(s, k).timeLeft == s.timeLeft - k
    ensures Ticks(s, k).qrData.Some? <==> k < s.timeLeft
    ensures k < s.timeLeft ==> Ticks(s, k).qrData == s.qrData
    ensures Ticks(s, k).activeSession == s.activeSession && Ticks(s, k).presentCount == s.presentCount
    ensures Inv(Ticks(s, k))
    decreases k
  {
    if k > 0 && s.timeLeft > 1 {
      Countdown(Tick(s), k - 1);
    }
  }

  /** Once the interval has stopped, further seconds change nothing. */
  lemma {:induction false} IdleStaysPut(s: Dashboard, k: nat)
    requires !Armed(s)
    ensures Ticks(s, k) == s
    decreases k
  {
    if k > 0 {
      IdleStaysPut(Tick(s), k - 1);
    }
  }

  /** A started session shows its credential for 119 ticks, withdraws it on the 120th, and stays closed. */
  lemma SessionLasts120Ticks(s: Dashboard, cls: ClassSession, now: int, today: string, token: string, extra: nat)
    ensures var s0 := StartSession(s, cls, now, today, token);
      && Ticks(s0, 119).qrData == s0.qrData
      && Ticks(s0, 119).timeLeft == 1
      && Ticks(s0, 120).qrData.None?
      && Ticks(s0, 120).timeLeft == 0
      && Ticks(s0, 120 + extra) == Ticks(s0, 120)
  {
    var s0 := StartSession(s, cls, now, today, token);
    Countdown(s0, 119);
    Countdown(s0, 120);
    IdleStaysPut(Ticks(s0, 120), extra);
    TicksAdd(s0, 120, extra);
  }

  lemma {:induction false} TicksAdd(s: Dashboard, a: nat, b: nat)
    ensures Ticks(s, a + b) == Ticks(Ticks(s, a), b)
    decreases a
  {
    if a > 0 {
      TicksAdd(Tick(s), a - 1, b);
    }
  }

  /** Over the next `k` seconds a poll is started once per multiple of 5 passed. */
  lemma {:induction false} PollSchedule(s: Dashboard, k: nat)
    requires Inv(s) && s.qrData.Some? && k <= s.timeLeft
    ensures PollsDuring(s, k) == s.timeLeft / PollPeriod - (s.timeLeft - k) / PollPeriod
    decreases k
  {
    if k > 0 {
      var t := s.timeLeft;
      if k > 1 {
        PollSchedule(Tick(s), k - 1);
      }
      assert (if t % 5 == 0 then 1 else 0) + (t - 1) / 5 == t / 5;
    }
  }

  /** A full two-minute session starts 24 polls of the present count, the first on its first tick. */
  lemma PollsPerSession(s: Dashboard, cls: ClassSession, now: int, today: string, token: string)
    ensures var s0 := StartSession(s, cls, now, today, token);
      PollDue(s0) && PollsDuring(s0, 120) == 24
  {
    PollSchedule(StartSession(s, cls, now, today, token), 120);
  }

  /** `Math.floor(t / 60)` and `(t % 60).toString().padStart(2, '0')` joined by a colon. */
  function FormatTime(t: nat): (r: string)
    ensures 4 <= |r| && r[|r| - 3] == ':'
    ensures AllDigits(r[..|r| - 3]) && AllDigits(r[|r| - 2..])
    ensures DigitsValue(r[|r| - 2..]) < 60
    ensures DigitsValue(r[..|r| - 3]) * 60 + DigitsValue(r[|r| - 2..]) == t
    ensures r[..|r| - 3] == NatToString(t / 60)
    ensures |r| > 4 ==> r[0] != '0'
  {
    var minutes := NatToString(t / 60);
    var seconds := PadStart2(NatToString(t % 60));
    NatToStringRoundTrip(t / 60);
    NatToStringRoundTrip(t % 60);
    PadDigitsValue(NatToString(t % 60));
    var r := minutes + ":" + seconds;
    assert r[..|r| - 3] == minutes;
    assert r[|r| - 2..] == seconds;
    r
  }

  /** Padding a one- or two-digit string with zeros keeps its value. */
  lemma PadDigitsValue(s: string)
    requires AllDigits(s) && 0 < |s| <= 2
    ensures |PadStart2(s)| == 2 && AllDigits(PadStart2(s))
    ensures DigitsValue(PadStart2(s)) == DigitsValue(s)
  {
    if |s| == 1 {
      var p := PadStart2(s);
      assert p[..1] == "0";
      assert DigitsValue("0") == 0;
      assert p[..1][..0] == [];
      assert s[..0] == [];
    }
  }

  lemma FormatTimeExamples()
    ensures FormatTime(120) == "2:00"
    ensures FormatTime(5) == "0:05"
    ensures FormatTime(65) == "1:05"
  {
  }
}

=== FILE: types.dfy ===
/**
 The records shared by every page of the attendance application: users and
 their roles, scheduled classes, attendance records and the QR credential a
 teacher displays. Optional TypeScript fields (`studentId?`, `location?`)
 become `Option`s; `null`/`undefined` results become `None`.
 */
module Types {

  datatype Option<+T> = None | Some(value: T)

  /** The outcome of a call that can throw: a value, or the thrown message. */
  datatype Result<+T> = Ok(value: T) | Err(message: string)

  datatype UserRole = Student | Teacher | Admin

  datatype UserStatus = Active | Pending | Inactive

  datatype User = User(
    email: string,
    role: UserRole,
    name: string,
    status: UserStatus,
    studentId: Option<string>)

  datatype ClassSession = ClassSession(
    classId: string,
    className: string,
    subject: string,
    teacherEmail: string,
    startTime: string,
    endTime: string)

  datatype AttendanceStatus = Present | Absent

  datatype AttendanceMethod = QR | Manual | AI

  datatype AttendanceRecord = AttendanceRecord(
    attendanceId: string,
    date: string,
    studentId: string,
    classId: string,
    status: AttendanceStatus,
    timestamp: string,
    location: Option<string>,
    // The source's `method` field, renamed because `method` is a Dafny keyword.
    attendanceMethod: AttendanceMethod)

  /** The payload encoded in the attendance QR code; timestamps are epoch milliseconds. */
  datatype QRData = QRData(
    classId: string,
    date: string,
    startTimestamp: int,
    expiryTimestamp: int,
    token: string)

  /** The string value of a role, as the `UserRole` enum spells it. */
  function RoleName(r: UserRole): (s: string)
    ensures |s| > 0
  {
    match r
    case Student => "Student"
    case Teacher => "Teacher"
    case Admin => "Admin"
  }

  /** Teachers and admins sign in on the "Staff / Admin" side. */
  predicate IsStaff(r: UserRole) {
    r == Teacher || r == Admin
  }
}
